=== FILE: README.md ===
# NES voice timing core, modelled in Dafny

This project models the integer timing core of the LMMS "Nescaline" NES
instrument voice (`NesObject`). For one sounding note it covers:

- the constructor's initial state;
- the per-block retuning of wavelengths and snapshot of the knob values;
- the per-frame state machine of the four channels:
  - pulse channels 1 and 2 with duty cycle, envelope and frequency sweep
    (channel 1 has its extra down-sweep step);
  - triangle channel 3, which indexes a 32-step wavetable;
  - noise channel 4, whose shift register is updated once every `wlen4`
    frames, with an envelope.

A render call is the step iterated once per frame. Each frame yields the four
integer channel levels that the floating-point mixing stage receives.

Modules, following the structure of `NesObject::renderOutput`:

- `NesMath`: the C++ integer operators used. These are `>>` on a non-negative
  `int` and `/` rounding toward zero (`Quot`).
- `Envelope`: the envelope counter and the 4-bit value that channels 1, 2 and 4 share.
- `Sweep`: the sweep-amount remap and one sweep step of a wavelength.
- `Channels`: the level and next state of each channel for one frame.
- `Instrument`: the knobs of `NesInstrument`, their declared ranges and
  defaults, and the per-block snapshot. The snapshot gives the duty fraction in
  eighths, the remapped sweep shift, and the envelope and sweep periods in frames.
- `Frames`: a render call as a frame loop over any step. Block continuity is
  proved once here.
- `Voice`: `VoiceState`, `New`, `Retune`, `Output`, `Next`, `Render`,
  `RenderBlock`, the loop `RenderOutput`, and the lemmas about them.

Things the code does that this model treats as inputs:

- `Nes.h` is not part of this model. Its constants and helpers are fields of
  a `Chip` value: `MIN_WLEN`, `TRIANGLE_WAVETABLE`, the noise presets
  `NOISE_FREQS` (already converted to wavelengths), the `LFSR_INIT` seed, and
  `LFSR()` / `updateLFSR()` as total functions. They are constrained only by
  `ChipValid`: `minWlen >= 3`, so that channel 1's down-sweep leaves a
  positive wavelength, plus full-length tables.
- `DUTY_CYCLE` is modelled as d/8 for d in {1, 2, 4, 6}. This matches the
  "12.5%/25%/50%/75% Duty cycle" labels of the view. So the test
  `counter > wlen * duty` is `8 * counter > d * wlen`.
- The float `wavelength()` is taken as given integers: `Pitch` supplies the
  block's wavelengths and `Timing` supplies the envelope and sweep periods in
  frames. `m_maxWlen` (`wavelength(MIN_FREQ)`) is an argument of `New`.

Behaviour of the code worth noting, which the model follows:

- Wavelengths are not kept at or above the minimum. The code only gates on
  the range: an out-of-range pulse channel is silent and does not sweep.
- The triangle channel checks only the upper bound `m_maxWlen`.
- A positive knob sweep amount does shorten the wavelength (pitch rises).
  For channel 2 the step `wlen >> |s|` is 0 when `wlen < 2^|s|`, so that
  step is not strict. Only channel 1, with its extra step, strictly
  shortens on every sweep.
- `m_wlen1` .. `m_wlen4` are not initialised by the constructor. `New` sets
  them to 0 until the first block retunes the voice. This is safe because
  `m_lastNoteFreq` starts at 0.0, so the first block always recomputes them.
- A render call of 0 frames still retunes the voice (Nes.cpp:105-122 runs
  before the frame loop). When the pitch changed, it resets swept tone
  wavelengths, and it always recomputes the noise wavelength.

## Model

| member | source | states |
|---|---|---|
| `Voice.New` | plugins/nes/Nes.cpp:66-92 | a new voice has every phase, envelope and sweep counter at 0, every envelope value at 15, the noise register at its seed, and no frequency seen yet |
| `Voice.FirstBlockValid` | plugins/nes/Nes.cpp:105-111 | because the last frequency starts at 0.0, a new voice retuned to a positive pitch with positive wavelengths is a valid state for the frame step |
| `Voice.Retune` | plugins/nes/Nes.cpp:105-122 | tone wavelengths change only when the note frequency differs from the last one seen; the noise wavelength is the note's own or the preset at slot `15 - noiseFreq`; no counter, envelope or register changes |
| `Instrument.Defaults` | plugins/nes/Nes.cpp:396-443 | the default knob values lie in their declared ranges: all channels enabled at volume 15, envelopes and sweeps off |
| `Instrument.DutyEighths` | plugins/nes/Nes.cpp:673-679 | the four duty selectors map to 1, 2, 4 and 6 eighths (12.5%, 25%, 50%, 75%), strictly increasing |
| `Instrument.PulseSnapshot` | plugins/nes/Nes.cpp:135-155 | a pulse channel's block controls keep its flags and volume, use the duty fraction and the remapped sweep shift, and have the declared ranges |
| `Instrument.Snapshot` | plugins/nes/Nes.cpp:130-174 | channel 1 and channel 2 controls come from their own knobs with their own envelope and sweep periods; the triangle keeps its enable and volume; the noise channel keeps its enable, volume, envelope flags and mode, with its own envelope period; from in-range knobs every volume is in 0..15, duty below 8 eighths and sweep shift in -7..7 |
| `Sweep.Shift` | plugins/nes/Nes.cpp:154-174 | for an amount in -7..7 the remapped shift is 0 exactly when the amount is 0; otherwise its sign is opposite to the amount and its magnitude is `8 - abs(amount)`, in 1..7 |
| `Sweep.Apply` | plugins/nes/Nes.cpp:206-214 | a positive shift lengthens the wavelength by `wlen >> s`, strictly once `wlen >= 2^s`; a negative shift shortens it by `wlen >> abs(s)` and keeps it positive; channel 1 takes 1 more off, so it strictly falls |
| `Channels.SweptWlen` | plugins/nes/Nes.cpp:199-216 | the wavelength changes only on a frame where the sweep counter reaches the rate, the sweep is enabled and the wavelength is in `[MIN_WLEN, maxWlen]`; the change is in the direction of the shift's sign; the result stays positive |
| `Channels.PulseNext` | plugins/nes/Nes.cpp:198-231 | after a frame the phase lies in `[0, wlen)` of the new wavelength and differs from the old phase plus one by a whole number of wavelengths, so it wraps to 0; the sweep counter is 0 exactly when it reached the rate and otherwise counts up by one; the envelope ticks |
| `Channels.Advance` | plugins/nes/Nes.cpp:219-220 | the phase counter moves one step forward, lies in `[0, wlen)` and differs from the old phase plus one by a whole number of wavelengths, so it wraps to 0 at the wavelength and a phase left beyond a shortened wavelength is reduced |
| `Channels.Amplitude` | plugins/nes/Nes.cpp:192-194 | a sounding level is the volume with the envelope off; with it on, the level `a` is the truncated quotient `volume * env / 15`, that is `15a <= volume * env < 15(a + 1)`; either way it lies in 0..volume, is the full volume at envelope 15 and is 0 at envelope 0 |
| `NesMath.ScaledByFifteenths` | plugins/nes/Nes.cpp:319 | `volume * env / 15` lies in 0..volume when the envelope is in 0..15 |
| `NesMath.Quot` | plugins/nes/Nes.cpp:301 | integer `/` rounds toward zero for either sign of the numerator |
| `Channels.PulseLevel` | plugins/nes/Nes.cpp:188-196 | a disabled or out-of-range pulse channel outputs 0; a non-zero level only occurs while `8 * phase <= d * wlen`; the level lies in 0..volume |
| `Channels.HighCountPrefix` | plugins/nes/Nes.cpp:190 | the phases where the pulse is high are exactly the first `d * wlen / 8 + 1` |
| `Channels.DutyFraction` | plugins/nes/Nes.cpp:190 | over one period a pulse with duty d/8 is high for d/8 of the period, to within one frame |
| `Channels.TriangleIndex` | plugins/nes/Nes.cpp:295-300 | after reducing the phase modulo `wlen3`, the table index `(phase * 32) / wlen3` lies in 0..31 and marks the 32nd of the period the phase is in |
| `Channels.TriangleLevel` | plugins/nes/Nes.cpp:297-303 | a disabled triangle, or one whose wavelength is above the maximum, outputs 0; with 4-bit table entries the level lies in 0..volume; otherwise it is the table entry scaled by `volume / 15` with the integer division, which at full volume is the entry itself |
| `Channels.TriangleNext` | plugins/nes/Nes.cpp:294-305 | the triangle phase after a frame lies in `1..wlen3` and differs from the old phase plus one by a whole number of wavelengths, so a phase left beyond the wavelength by a retune is reduced first; the wavelength is unchanged |
| `Channels.NoiseLevel` | plugins/nes/Nes.cpp:314-323 | the noise level is 0 when disabled or when the register gates it off, otherwise the amplitude, which lies in 0..volume |
| `Channels.NoiseRunAdditive` | plugins/nes/Nes.cpp:325-330 | running the noise channel `a` frames and then `b` frames is running it `a + b` frames |
| `Channels.NoiseHold` | plugins/nes/Nes.cpp:325-326 | until its counter reaches `wlen4`, the noise counter only counts and the register is untouched |
| `Channels.NoiseOnePeriod` | plugins/nes/Nes.cpp:325-330 | from a fresh counter, `wlen4` frames update the register exactly once, in the selected mode, and leave the counter fresh again |
| `Channels.NoisePeriods` | plugins/nes/Nes.cpp:325-330 | from a fresh counter, `m` periods of `wlen4` frames update the register exactly `m` times |
| `Voice.RenderNoise` | plugins/nes/Nes.cpp:312-331 | the noise channel evolves independently of the rest of the voice: after `n` frames it is its own run of `n` frames |
| `NesMath.Shr` | plugins/nes/Nes.cpp:208-212 | `x >> k` of a non-negative `x` is the largest `r` with `r * 2^k <= x`; it lies in 0..x and is at most half of `x` once `k >= 1` |
| `Voice.NoiseWlen` | plugins/nes/Nes.cpp:113-120 | in note mode the noise wavelength is the note's own; otherwise it is the preset wavelength at slot `15 - noiseFreq`, so the table is read from the top down: the last slot at knob 0 and the first at knob 15 |
| `Channels.NoiseNext` | plugins/nes/Nes.cpp:325-343 | the register is updated, in the selected mode, only on the frame its counter reaches `wlen4`, and that counter then resets to 0; otherwise the counter counts up and the register is untouched |
| `Envelope.Decay` | plugins/nes/Nes.cpp:226-230 | one envelope step lowers the value by one; from 0 it goes to 15 when looping and stays at 0 otherwise; it keeps the value in 0..15 |
| `Envelope.Tick` | plugins/nes/Nes.cpp:222-231 | the envelope counter resets to 0 exactly when it reaches the envelope length, and only then does the value step; otherwise it only counts |
| `Envelope.RunValid` | plugins/nes/Nes.cpp:332-343 | envelope values stay in 0..15 after any number of frames |
| `Envelope.RunAdditive` | plugins/nes/Nes.cpp:274-285 | running an envelope `a` frames and then `b` frames is running it `a + b` frames |
| `Envelope.Hold` | plugins/nes/Nes.cpp:222-226 | until its counter reaches the length, the envelope value does not change |
| `Envelope.OnePeriod` | plugins/nes/Nes.cpp:222-231 | from a fresh counter the value steps exactly once in `len` frames |
| `Envelope.Periods` | plugins/nes/Nes.cpp:274-285 | from a fresh counter, `k` envelope periods make exactly `k` steps |
| `Envelope.LoopSteps` | plugins/nes/Nes.cpp:279-283 | a looping envelope counts 15, 14, ..., 0, 15, ...: after `k` steps it is `k` below its start, mod 16 |
| `Envelope.LoopCycle` | plugins/nes/Nes.cpp:337-341 | a looping envelope returns to its starting state after `16 * len` frames |
| `Envelope.NonLoopSteps` | plugins/nes/Nes.cpp:226-230 | a non-looping envelope steps down to 0 and holds at 0 |
| `Envelope.DecaysToSilence` | plugins/nes/Nes.cpp:332-343 | a non-looping envelope starting at `v` is at 0 after `v` periods and after every later whole period |
| `Envelope.NonLoopingNeverRises` | plugins/nes/Nes.cpp:222-231 | a non-looping envelope's value never rises above where it started |
| `Voice.Output` | plugins/nes/Nes.cpp:188-323 | a frame's levels come from the state at its start: disabled or out-of-range channels are 0, noise is 0 when gated off, and a pulse is 0 outside the high part of the duty cycle; otherwise a pulse or noise level is its channel's amplitude and the triangle level is the wavetable entry of its phase scaled by `volume / 15`; levels lie in 0..volume |
| `Voice.Next` | plugins/nes/Nes.cpp:179-343 | one frame keeps the voice valid. It advances channel 1 (with the extra down-sweep step), channel 2 (without it), the triangle and the noise channel, and leaves `maxWlen` and the last frequency alone |
| `Voice.Render` | plugins/nes/Nes.cpp:179-389 | rendering `n` frames yields `n` levels and a valid state with the same `maxWlen`, last frequency, triangle and noise wavelengths |
| `Voice.RenderKeeps` | plugins/nes/Nes.cpp:295-331 | every frame keeps the state valid, and neither the triangle wavelength nor the noise wavelength moves |
| `Voice.EmptyBlock` | plugins/nes/Nes.cpp:105-122 | a render call of 0 frames outputs nothing but still retunes the voice; it leaves the voice unchanged only when the pitch is the last one seen and the noise wavelength is already the one the knobs select |
| `Voice.RenderNothing` | plugins/nes/Nes.cpp:179 | the frame loop run 0 times leaves every counter, envelope, wavelength and register unchanged and outputs nothing (a whole render call of 0 frames still retunes; see `Voice.EmptyBlock`) |
| `Voice.RenderOneMore` | plugins/nes/Nes.cpp:179-389 | one more frame steps the state once and appends the levels read before that step |
| `Voice.RenderSplit` | plugins/nes/Nes.cpp:179 | rendering `a` frames then `b` frames gives the same state and levels as rendering `a + b` |
| `Frames.Split` | plugins/nes/Nes.cpp:179-389 | for any per-frame step, `a` frames then `b` frames is `a + b` frames, with outputs concatenated |
| `Frames.OutputAt` | plugins/nes/Nes.cpp:386-387 | the output of frame `i` is read from the state after the first `i` frames |
| `Voice.RenderFrame` | plugins/nes/Nes.cpp:188-196 | the levels of frame `i` are `Output` of the state after `i` frames |
| `Voice.RenderPhases` | plugins/nes/Nes.cpp:271-272 | after at least one frame both pulse phases lie in `[0, wlen)` |
| `Voice.RenderEnvelopes` | plugins/nes/Nes.cpp:332-343 | each envelope evolves independently of the rest of the voice: after `n` frames it is its own envelope run for `n` frames |
| `Voice.RenderSweepDirection` | plugins/nes/Nes.cpp:252-268 | over any number of frames, a positive shift never shortens a pulse wavelength, a negative one never lengthens it, and a disabled sweep never moves it |
| `Voice.Channel1DownSweepStrict` | plugins/nes/Nes.cpp:210-214 | on a frame where channel 1 sweeps down, its wavelength strictly falls and its sweep counter resets to 0 |
| `Voice.RenderLevels` | plugins/nes/Nes.cpp:241-249 | in every frame of a block, every level lies in 0..volume and a disabled channel outputs 0 |
| `Voice.RenderBlock` | plugins/nes/Nes.cpp:103-179 | a render call retunes the voice for the block's pitch, snapshots the knobs and renders `frames` frames from the retuned voice under that snapshot; it yields exactly `frames` levels, and the last frequency afterwards is the block's pitch |
| `Voice.BlockContinuity` | plugins/nes/Nes.cpp:105-122 | with knobs, timing and pitch held, two render calls of `a` and `b` frames give the same state and frames as one call of `a + b`, because the second call's retune changes nothing |
| `Voice.RenderOutput` | plugins/nes/Nes.cpp:179-389 | the frame loop, which reads each frame's levels and then steps, computes exactly the block `RenderBlock` describes |

## Left out

- The floating-point mixing chain is left out: dither, the `/15 - 1` rescale,
  `signedPow` distortion, the one-pole filter, the mix weights, master volume
  and the DC blocker (Nes.cpp:352-387). It is float numerics, and its dither
  comes from `Oscillator::noiseSample`. The model stops at the four integer
  channel levels per frame.
- Detune multipliers (`powf`, Nes.cpp:608-623) and the float `wavelength()`
  are left out. The wavelengths, envelope periods and sweep periods they
  produce are integer inputs (`Pitch`, `Timing`, `New`'s `maxWlen`).
- `Nes.h` is not part of this model. The bodies of `LFSR()` and `updateLFSR()`,
  the tap positions, the output polarity and the tables are abstract. So no
  invariant that the register stays non-zero, and no short-mode or long-mode
  period, is stated.
- XML save and load of settings (Nes.cpp:487-592) is persistence and is left out.
- The GUI view and knob wiring (Nes.cpp:628-805) are left out.
- The plugin descriptor and entry point (Nes.cpp:43-55, 812-815) are left out.
- Host note-lifecycle glue is left out: `playNote`, `deleteNotePluginData`,
  `applyRelease`, `processAudioBuffer` (Nes.cpp:461-484).
- Concurrent knob changes from the UI thread are left out. The model takes one
  snapshot of the knobs per block. The code reads most knobs once before the
  frame loop, but reads volume and envelope enable (Nes.cpp:192-194, 245-247,
  301, 318-320), sweep enable (Nes.cpp:203, 256) and noise mode (Nes.cpp:330)
  again on every frame.
- Instrument.Snapshot: treats those per-frame knob reads as constant within a
  render call. This holds only because concurrent knob changes are left out.
- Voice.Valid: requires the tone wavelengths `wlen1`..`wlen3` to be at least 1,
  and `Render`, `RenderBlock` and `RenderOutput` inherit this requirement. The
  code takes `%` by `m_wlen1`, `m_wlen2` and `m_wlen3` unconditionally
  (Nes.cpp:220, 272, 295), whether or not the range checks pass. A zero wavelength there is a C++ division by zero,
  which is undefined behaviour, so the model excludes that input instead of
  giving it a meaning.
- The master volume and the unused vibrato knob are only consumed by the
  mixing stage or not at all, so `Instrument.Knobs` does not carry them.
- C++ `int` overflow is not modelled. All counters reset or wrap within their
  periods. Wavelengths only grow while at most `maxWlen`, so they stay below
  twice that.
- Channels.PulseLevel: the source multiplies an `int` by a `float` duty.
  The model compares exactly in eighths. The two agree while `wlen * d / 8` is
  exactly representable, that is for any wavelength below 2^24.
- Channels.Amplitude: the source computes `volume * env / 15.0` in floating
  point and truncates it. The model uses the exact integer quotient. The two
  agree because the exact quotient is either an integer or at least 1/15 away
  from one.

=== FILE: channels.dfy ===
/**
 The four channels of one voice, each as a per-frame output level computed
 from the state at the start of the frame and a next-state function for the
 frame's counter, envelope, sweep and noise-register updates. Levels are the
 integers 0..15 the mixing stage receives.
 */
module Channels {
  import opened NesMath
  import Envelope
  import Sweep

  /** The largest channel volume (knob range 0..15). */
  const MaxVolume := 15

  /** Number of steps of the triangle wavetable. */
  const TriangleSteps := 32

  // ---------------------------------------------------------------------------
  // Pulse channels 1 and 2
  // ---------------------------------------------------------------------------

  /**
   The controls of a pulse channel for one block. `dutyEighths` is the duty
   fraction in eighths; `envLen` and `sweepRate` are in frames; `sweepShift`
   is the remapped sweep amount.
   */
  datatype PulseControls = PulseControls(
    enabled: bool,
    volume: int,
    envEnabled: bool,
    envLoop: bool,
    envLen: int,
    dutyEighths: int,
    sweepEnabled: bool,
    sweepShift: int,
    sweepRate: int)

  /** Wavelength (frames per period), phase counter, envelope and sweep counter of a pulse channel. */
  datatype Pulse = Pulse(wlen: int, phase: int, env: Envelope.Env, sweepCounter: int)

  predicate PulseValid(c: Pulse)
  {
    c.wlen >= 1 && c.phase >= 0 && c.sweepCounter >= 0 && Envelope.Valid(c.env)
  }

  predicate PulseControlsValid(k: PulseControls)
  {
    0 <= k.volume <= MaxVolume && 0 <= k.dutyEighths < 8 && -Sweep.MaxAmount <= k.sweepShift <= Sweep.MaxAmount
  }

  /** A tone channel only sounds, and only sweeps, while its wavelength lies in the representable range. */
  predicate InRange(wlen: int, minWlen: int, maxWlen: int)
  {
    minWlen <= wlen <= maxWlen
  }

  /** The pulse is high while the phase is at most `wlen * duty`, the duty being `dutyEighths / 8`. */
  predicate High(phase: int, wlen: int, dutyEighths: int)
  {
    8 * phase <= dutyEighths * wlen
  }

  /** The level of a sounding channel: its volume, or its volume scaled by envelope/15. */
  function Amplitude(volume: int, envEnabled: bool, env: int): (a: int)
    ensures 0 <= volume && 0 <= env <= Envelope.Top ==> 0 <= a <= volume
    ensures !envEnabled ==> a == volume
    ensures 0 <= volume && env == Envelope.Top ==> a == volume
    ensures envEnabled && env == 0 ==> a == 0
    ensures envEnabled && 0 <= volume && 0 <= env ==> 15 * a <= volume * env < 15 * (a + 1)
  {
    if envEnabled then
      ScaledByFifteenths(volume, env);
      Quot(volume * env, 15)
    else
      volume
  }

  /** The output level of a pulse channel in the current frame. */
  function PulseLevel(k: PulseControls, c: Pulse, minWlen: int, maxWlen: int): (l: int)
    ensures !k.enabled || !InRange(c.wlen, minWlen, maxWlen) ==> l == 0
    ensures l != 0 ==> High(c.phase, c.wlen, k.dutyEighths)
    ensures k.enabled && InRange(c.wlen, minWlen, maxWlen) && High(c.phase, c.wlen, k.dutyEighths)
      ==> l == Amplitude(k.volume, k.envEnabled, c.env.value)
    ensures 0 <= k.volume && Envelope.Valid(c.env) ==> 0 <= l <= k.volume
  {
    if InRange(c.wlen, minWlen, maxWlen) && k.enabled then
      if !High(c.phase, c.wlen, k.dutyEighths) then 0 else Amplitude(k.volume, k.envEnabled, c.env.value)
    else
      0
  }

  /** The phase counter after one frame: one further on, wrapped modulo the wavelength. */
  function Advance(phase: int, wlen: int): (p: int)
    requires phase >= 0 && wlen >= 1
    ensures 0 <= p < wlen
    ensures phase + 1 < wlen ==> p == phase + 1
    ensures phase + 1 == wlen ==> p == 0
    ensures (phase + 1 - p) % wlen == 0
  {
    WholePeriods(phase + 1, wlen);
    (phase + 1) % wlen
  }

  /** Whether the sweep counter reaches the sweep rate this frame. */
  predicate SweepFires(k: PulseControls, c: Pulse)
  {
    c.sweepCounter + 1 >= k.sweepRate
  }

  /**
   The wavelength after the frame's sweep update: it moves only on a frame
   where the sweep counter reaches the rate, the sweep is enabled and the
   wavelength is in range.
   */
  function SweptWlen(k: PulseControls, c: Pulse, minWlen: int, maxWlen: int, extraStep: bool): (w: int)
    requires c.wlen >= 1
    requires extraStep ==> minWlen >= 3
    ensures w >= 1
    ensures w != c.wlen ==> SweepFires(k, c) && k.sweepEnabled && InRange(c.wlen, minWlen, maxWlen)
    ensures SweepFires(k, c) && k.sweepEnabled && InRange(c.wlen, minWlen, maxWlen)
      ==> w == Sweep.Apply(c.wlen, k.sweepShift, extraStep)
    ensures k.sweepShift > 0 ==> w >= c.wlen
    ensures k.sweepShift < 0 ==> w <= c.wlen
  {
    if SweepFires(k, c) && k.sweepEnabled && InRange(c.wlen, minWlen, maxWlen)
    then Sweep.Apply(c.wlen, k.sweepShift, extraStep)
    else c.wlen
  }

  /**
   One frame of a pulse channel: sweep, phase and envelope. `extraStep` is
   channel 1's additional step when sweeping down, which needs a minimum
   wavelength of at least 3 to keep the wavelength positive.
   */
  function PulseNext(k: PulseControls, c: Pulse, minWlen: int, maxWlen: int, extraStep: bool): (r: Pulse)
    requires PulseValid(c)
    requires extraStep ==> minWlen >= 3
    ensures PulseValid(r)
    ensures r.phase < r.wlen
    ensures (c.phase + 1 - r.phase) % r.wlen == 0
    ensures c.phase + 1 < r.wlen ==> r.phase == c.phase + 1
    ensures r.env == Envelope.Tick(c.env, k.envLen, k.envLoop)
    ensures r.sweepCounter == 0 <==> SweepFires(k, c)
    ensures r.sweepCounter != 0 ==> r.sweepCounter == c.sweepCounter + 1
    ensures r.wlen == SweptWlen(k, c, minWlen, maxWlen, extraStep)
  {
    var wlen := SweptWlen(k, c, minWlen, maxWlen, extraStep);
    WholePeriods(c.phase + 1, wlen);
    var sc := c.sweepCounter + 1;
    Pulse(wlen, Advance(c.phase, wlen), Envelope.Tick(c.env, k.envLen, k.envLoop), if SweepFires(k, c) then 0 else sc)
  }

  /** How many of the phases 0 .. n-1 have the pulse high. */
  function HighCount(wlen: int, dutyEighths: int, n: nat): nat
    decreases n
  {
    if n == 0 then 0
    else HighCount(wlen, dutyEighths, n - 1) + (if High(n - 1, wlen, dutyEighths) then 1 else 0)
  }

  /** The high phases are exactly the first `duty * wlen / 8 + 1`. */
  lemma {:induction false} HighCountPrefix(wlen: int, dutyEighths: int, n: nat)
    requires wlen >= 1 && dutyEighths >= 0
    ensures HighCount(wlen, dutyEighths, n) == if n <= dutyEighths * wlen / 8 + 1 then n else dutyEighths * wlen / 8 + 1
    decreases n
  {
    if n > 0 {
      HighCountPrefix(wlen, dutyEighths, n - 1);
      var t := dutyEighths * wlen / 8;
      DivisionBounds(dutyEighths * wlen, 8);
      assert High(n - 1, wlen, dutyEighths) <==> n - 1 <= t;
    }
  }

  /**
   Over one full period a pulse with duty d/8 (d < 8) is high for
   `d * wlen / 8 + 1` phases, which is d/8 of the period to within one frame.
   */
  lemma DutyFraction(wlen: int, dutyEighths: int)
    requires wlen >= 1 && 0 <= dutyEighths < 8
    ensures 8 * (HighCount(wlen, dutyEighths, wlen) - 1) <= dutyEighths * wlen < 8 * HighCount(wlen, dutyEighths, wlen)
  {
    HighCountPrefix(wlen, dutyEighths, wlen);
    DivisionBounds(dutyEighths * wlen, 8);
    MulMonotone(wlen, dutyEighths, 7);
  }

  // ---------------------------------------------------------------------------
  // Triangle channel 3
  // ---------------------------------------------------------------------------

  datatype TriangleControls = TriangleControls(enabled: bool, volume: int)

  /** Wavelength and phase counter of the triangle channel. */
  datatype Triangle = Triangle(wlen: int, phase: int)

  predicate TriangleValid(c: Triangle)
  {
    c.wlen >= 1 && c.phase >= 0
  }

  /** The wavetable step for a phase: the phase is first reduced modulo the wavelength. */
  function TriangleIndex(phase: int, wlen: int): (i: int)
    requires phase >= 0 && wlen >= 1
    ensures 0 <= i < TriangleSteps
    ensures i * wlen <= TriangleSteps * (phase % wlen) < (i + 1) * wlen
  {
    var p := phase % wlen;
    DivisionBounds(p * TriangleSteps, wlen);
    var i := (p * TriangleSteps) / wlen;
    assert i * wlen < TriangleSteps * wlen;
    i
  }

  /** The output level of the triangle channel: a wavetable entry scaled by volume/15. */
  function TriangleLevel(table: seq<int>, k: TriangleControls, c: Triangle, maxWlen: int): (l: int)
    requires |table| == TriangleSteps && TriangleValid(c)
    ensures !k.enabled || c.wlen > maxWlen ==> l == 0
    ensures 0 <= k.volume && (forall j :: 0 <= j < |table| ==> 0 <= table[j] <= 15) ==> 0 <= l <= k.volume
    ensures k.enabled && c.wlen <= maxWlen ==> l == Amplitude(k.volume, true, table[TriangleIndex(c.phase, c.wlen)])
    ensures k.enabled && c.wlen <= maxWlen && k.volume == MaxVolume ==> l == table[TriangleIndex(c.phase, c.wlen)]
  {
    if c.wlen <= maxWlen && k.enabled then
      var entry := table[TriangleIndex(c.phase, c.wlen)];
      ScaledByFifteenths(k.volume, entry);
      Quot(entry * k.volume, 15)
    else
      0
  }

  /** One frame of the triangle channel: the reduced phase advances by one. */
  function TriangleNext(c: Triangle): (r: Triangle)
    requires TriangleValid(c)
    ensures TriangleValid(r)
    ensures r.wlen == c.wlen
    ensures 1 <= r.phase <= c.wlen
    ensures (c.phase + 1 - r.phase) % c.wlen == 0
    ensures c.phase < c.wlen ==> r.phase == c.phase + 1
  {
    WholePeriods(c.phase, c.wlen);
    Triangle(c.wlen, c.phase % c.wlen + 1)
  }

  // ---------------------------------------------------------------------------
  // Noise channel 4
  // ---------------------------------------------------------------------------

  datatype NoiseControls = NoiseControls(
    enabled: bool,
    volume: int,
    envEnabled: bool,
    envLoop: bool,
    envLen: int,
    shortMode: bool)

  /**
   The noise shift register's behaviour, kept abstract: its initial seed,
   whether the current register gates the noise on, and one update in the
   selected mode.
   */
  datatype Lfsr = Lfsr(seed: int, output: int -> bool, update: (int, bool) -> int)

  /** Wavelength in frames between register updates, frame counter, envelope and register of the noise channel. */
  datatype Noise = Noise(wlen: int, counter: int, env: Envelope.Env, register: int)

  predicate NoiseValid(c: Noise)
  {
    c.counter >= 0 && Envelope.Valid(c.env)
  }

  /** The output level of the noise channel: its amplitude while enabled and the register gates it on. */
  function NoiseLevel(g: Lfsr, k: NoiseControls, c: Noise): (l: int)
    ensures !k.enabled || !g.output(c.register) ==> l == 0
    ensures k.enabled && g.output(c.register) ==> l == Amplitude(k.volume, k.envEnabled, c.env.value)
    ensures 0 <= k.volume && Envelope.Valid(c.env) ==> 0 <= l <= k.volume
  {
    if k.enabled then
      if g.output(c.register) then Amplitude(k.volume, k.envEnabled, c.env.value) else 0
    else
      0
  }

  /** One frame of the noise channel: the register is updated once every `wlen` frames. */
  function NoiseNext(g: Lfsr, k: NoiseControls, c: Noise): (r: Noise)
    requires NoiseValid(c)
    ensures NoiseValid(r)
    ensures r.wlen == c.wlen
    ensures r.counter == 0 <==> c.counter + 1 >= c.wlen
    ensures c.counter + 1 >= c.wlen ==> r.register == g.update(c.register, k.shortMode)
    ensures c.counter + 1 < c.wlen ==> r.counter == c.counter + 1 && r.register == c.register
    ensures r.env == Envelope.Tick(c.env, k.envLen, k.envLoop)
  {
    var n := c.counter + 1;
    var env := Envelope.Tick(c.env, k.envLen, k.envLoop);
    if n >= c.wlen then Noise(c.wlen, 0, env, g.update(c.register, k.shortMode))
    else Noise(c.wlen, n, env, c.register)
  }

  /** The noise channel after `n` frames. */
  function NoiseRun(g: Lfsr, k: NoiseControls, c: Noise, n: nat): (r: Noise)
    requires NoiseValid(c)
    ensures NoiseValid(r) && r.wlen == c.wlen
    decreases n
  {
    if n == 0 then c else NoiseRun(g, k, NoiseNext(g, k, c), n - 1)
  }

  /** The register after `m` updates in the same mode. */
  function Updates(g: Lfsr, register: int, shortMode: bool, m: nat): int
    decreases m
  {
    if m == 0 then register else g.update(Updates(g, register, shortMode, m - 1), shortMode)
  }

  /** Running `a` frames and then `b` frames is running `a + b` frames. */
  lemma {:induction false} NoiseRunAdditive(g: Lfsr, k: NoiseControls, c: Noise, a: nat, b: nat)
    requires NoiseValid(c)
    ensures NoiseRun(g, k, NoiseRun(g, k, c, a), b) == NoiseRun(g, k, c, a + b)
    decreases a
  {
    if a > 0 {
      NoiseRunAdditive(g, k, NoiseNext(g, k, c), a - 1, b);
      assert NoiseRun(g, k, c, a + b) == NoiseRun(g, k, NoiseNext(g, k, c), (a - 1) + b);
    }
  }

  /** Until the counter reaches the wavelength, frames only count: the register is untouched. */
  lemma {:induction false} NoiseHold(g: Lfsr, k: NoiseControls, c: Noise, j: nat)
    requires NoiseValid(c) && c.counter + j < c.wlen
    ensures NoiseRun(g, k, c, j).counter == c.counter + j
    ensures NoiseRun(g, k, c, j).register == c.register
    decreases j
  {
    if j > 0 {
      NoiseHold(g, k, NoiseNext(g, k, c), j - 1);
    }
  }

  /** From a fresh counter the register is updated exactly once in `wlen` frames, and the counter is fresh again. */
  lemma NoiseOnePeriod(g: Lfsr, k: NoiseControls, c: Noise)
    requires NoiseValid(c) && c.counter == 0 && c.wlen >= 1
    ensures NoiseRun(g, k, c, c.wlen).counter == 0
    ensures NoiseRun(g, k, c, c.wlen).register == g.update(c.register, k.shortMode)
  {
    NoiseHold(g, k, c, c.wlen - 1);
    NoiseRunAdditive(g, k, c, c.wlen - 1, 1);
  }

  /** From a fresh counter, `m` noise periods of `wlen` frames update the register exactly `m` times. */
  lemma {:induction false} NoisePeriods(g: Lfsr, k: NoiseControls, c: Noise, m: nat)
    requires NoiseValid(c) && c.counter == 0 && c.wlen >= 1
    ensures NoiseRun(g, k, c, m * c.wlen).counter == 0
    ensures NoiseRun(g, k, c, m * c.wlen).register == Updates(g, c.register, k.shortMode, m)
    decreases m
  {
    if m > 0 {
      NoisePeriods(g, k, c, m - 1);
      var a := (m - 1) * c.wlen;
      assert a + c.wlen == m * c.wlen;
      NoiseRunAdditive(g, k, c, a, c.wlen);
      NoiseOnePeriod(g, k, NoiseRun(g, k, c, a));
    }
  }

  // ---------------------------------------------------------------------------
  // All four channels
  // ---------------------------------------------------------------------------

  /** The controls of all four channels for one block. */
  datatype Controls = Controls(ch1: PulseControls, ch2: PulseControls, ch3: TriangleControls, ch4: NoiseControls)

  predicate ControlsValid(k: Controls)
  {
    && PulseControlsValid(k.ch1)
    && PulseControlsValid(k.ch2)
    && 0 <= k.ch3.volume <= MaxVolume
    && 0 <= k.ch4.volume <= MaxVolume
  }
}

=== FILE: envelope.dfy ===
/**
 The volume envelope shared by channels 1, 2 and 4 of the voice. A frame
 counter counts up to the envelope length; when it gets there it resets and
 the 4-bit envelope value steps down by one. Stepping below 0 either loops
 back to 15 or holds at 0.
 */
module Envelope {

  /** The envelope value a voice starts with, and the value a looping envelope wraps back to. */
  const Top := 15

  /** Envelope counter (frames since the last step) and current envelope value. */
  datatype Env = Env(counter: int, value: int)

  /** What every reachable envelope satisfies: a non-negative counter and a 4-bit value. */
  predicate Valid(e: Env)
  {
    e.counter >= 0 && 0 <= e.value <= Top
  }

  /** The value after one step down: one lower, or, below 0, back to 15 (looping) or held at 0. */
  function Decay(value: int, loop: bool): (r: int)
    ensures 0 <= value <= Top ==> 0 <= r <= Top
    ensures value >= 1 ==> r == value - 1
    ensures value == 0 && loop ==> r == Top
    ensures value == 0 && !loop ==> r == 0
    ensures value >= 0 && (value > 0 || !loop) ==> r <= value
  {
    var v := value - 1;
    if v < 0 then (if loop then Top else 0) else v
  }

  /** One frame of the envelope, with `len` the envelope length in frames. */
  function Tick(e: Env, len: int, loop: bool): (r: Env)
    ensures Valid(e) ==> Valid(r)
    ensures Valid(e) ==> (r.counter == 0 <==> e.counter + 1 >= len)
    ensures e.counter + 1 < len ==> r == Env(e.counter + 1, e.value)
    ensures e.counter + 1 >= len ==> r.value == Decay(e.value, loop)
    ensures !loop && Valid(e) ==> r.value <= e.value
  {
    var c := e.counter + 1;
    if c >= len then Env(0, Decay(e.value, loop)) else Env(c, e.value)
  }

  /** The envelope after `n` frames. */
  function Run(e: Env, len: int, loop: bool, n: nat): Env
    decreases n
  {
    if n == 0 then e else Run(Tick(e, len, loop), len, loop, n - 1)
  }

  /** Running `a` frames and then `b` frames is running `a + b` frames. */
  lemma {:induction false} RunAdditive(e: Env, len: int, loop: bool, a: nat, b: nat)
    ensures Run(Run(e, len, loop, a), len, loop, b) == Run(e, len, loop, a + b)
    decreases a
  {
    if a > 0 {
      RunAdditive(Tick(e, len, loop), len, loop, a - 1, b);
      assert Run(e, len, loop, a + b) == Run(Tick(e, len, loop), len, loop, (a - 1) + b);
    }
  }

  /** Every frame keeps the envelope valid. */
  lemma {:induction false} RunValid(e: Env, len: int, loop: bool, n: nat)
    requires Valid(e)
    ensures Valid(Run(e, len, loop, n))
    decreases n
  {
    if n > 0 {
      RunValid(Tick(e, len, loop), len, loop, n - 1);
    }
  }

  /** Until the counter reaches the length, frames only count: the value is untouched. */
  lemma {:induction false} Hold(e: Env, len: int, loop: bool, k: nat)
    requires e.counter >= 0 && e.counter + k < len
    ensures Run(e, len, loop, k) == Env(e.counter + k, e.value)
    decreases k
  {
    if k > 0 {
      Hold(Env(e.counter + 1, e.value), len, loop, k - 1);
    }
  }

  /** From a fresh counter the value steps exactly once in `len` frames. */
  lemma {:induction false} OnePeriod(v: int, len: int, loop: bool)
    requires len >= 1
    ensures Run(Env(0, v), len, loop, len) == Env(0, Decay(v, loop))
  {
    Hold(Env(0, v), len, loop, len - 1);
    RunAdditive(Env(0, v), len, loop, len - 1, 1);
  }

  /** The value after `k` steps down. */
  function Steps(v: int, loop: bool, k: nat): int
    decreases k
  {
    if k == 0 then v else Decay(Steps(v, loop, k - 1), loop)
  }

  /** From a fresh counter, `k` envelope periods take exactly `k` steps down. */
  lemma {:induction false} Periods(v: int, len: int, loop: bool, k: nat)
    requires len >= 1
    ensures Run(Env(0, v), len, loop, k * len) == Env(0, Steps(v, loop, k))
    decreases k
  {
    if k > 0 {
      Periods(v, len, loop, k - 1);
      var m := (k - 1) * len;
      assert m + len == k * len;
      RunAdditive(Env(0, v), len, loop, m, len);
      OnePeriod(Steps(v, loop, k - 1), len, loop);
    }
  }

  /** A looping envelope counts 15, 14, ..., 0, 15, ...: after `k` steps it sits `k` below its start, mod 16. */
  lemma {:induction false} LoopSteps(v: int, k: nat)
    requires 0 <= v <= Top
    ensures Steps(v, true, k) == (v - k) % 16
    decreases k
  {
    if k > 0 {
      LoopSteps(v, k - 1);
      var m := (v - (k - 1)) % 16;
      if m == 0 {
        assert (v - k) % 16 == 15;
      } else {
        assert (v - k) % 16 == m - 1;
      }
    }
  }

  /** A looping envelope returns to where it started after 16 envelope periods. */
  lemma LoopCycle(v: int, len: int)
    requires len >= 1 && 0 <= v <= Top
    ensures Run(Env(0, v), len, true, 16 * len) == Env(0, v)
  {
    var k: nat := 16;
    Periods(v, len, true, k);
    LoopSteps(v, k);
    assert (v - k) % 16 == v;
  }

  /** A non-looping envelope steps down to 0 and then holds at 0. */
  lemma {:induction false} NonLoopSteps(v: int, k: nat)
    requires 0 <= v <= Top
    ensures Steps(v, false, k) == if k <= v then v - k else 0
    decreases k
  {
    if k > 0 {
      NonLoopSteps(v, k - 1);
    }
  }

  /** A non-looping envelope reaches 0 after `v` periods and is still 0 after any later whole period. */
  lemma DecaysToSilence(v: int, len: int, k: nat)
    requires len >= 1 && 0 <= v <= Top && k >= v
    ensures Run(Env(0, v), len, false, k * len) == Env(0, 0)
  {
    Periods(v, len, false, k);
    NonLoopSteps(v, k);
  }

  /** A non-looping envelope never rises: its value after any number of frames is at most where it started. */
  lemma {:induction false} NonLoopingNeverRises(e: Env, len: int, n: nat)
    requires Valid(e)
    ensures Run(e, len, false, n).value <= e.value
    decreases n
  {
    if n > 0 {
      NonLoopingNeverRises(Tick(e, len, false), len, n - 1);
    }
  }
}

=== FILE: frames.dfy ===
/**
 A render call as a frame loop: a per-frame step applied `n` times, with each
 frame's output read from the state at the start of that frame. Stated once
 for any state and output type, so that block continuity is proved without
 looking inside a particular step.
 */
module Frames {

  /** The state after `n` frames and the outputs of those frames, in order. */
  function Run<S, O>(step: S -> S, out: S -> O, s: S, n: nat): (r: (S, seq<O>))
    ensures |r.1| == n
    decreases n
  {
    if n == 0 then (s, [])
    else
      var rest := Run(step, out, step(s), n - 1);
      (rest.0, [out(s)] + rest.1)
  }

  /** Running `a` frames and then `b` more is running `a + b` frames: same final state, outputs concatenated. */
  lemma {:induction false} Split<S, O>(step: S -> S, out: S -> O, s: S, a: nat, b: nat)
    ensures Run(step, out, Run(step, out, s, a).0, b).0 == Run(step, out, s, a + b).0
    ensures Run(step, out, s, a).1 + Run(step, out, Run(step, out, s, a).0, b).1 == Run(step, out, s, a + b).1
    decreases a
  {
    if a > 0 {
      var o := out(s);
      var ra := Run(step, out, step(s), a - 1);
      var rb := Run(step, out, ra.0, b);
      Split(step, out, step(s), a - 1, b);
      assert Run(step, out, s, a + b) == Run(step, out, s, (a - 1) + b + 1);
      assert ([o] + ra.1) + rb.1 == [o] + (ra.1 + rb.1);
    }
  }

  /** One more frame appends one output, read from the state the first `n` frames reached. */
  lemma Extend<S, O>(step: S -> S, out: S -> O, s: S, n: nat)
    ensures Run(step, out, s, n + 1).0 == step(Run(step, out, s, n).0)
    ensures Run(step, out, s, n + 1).1 == Run(step, out, s, n).1 + [out(Run(step, out, s, n).0)]
  {
    Split(step, out, s, n, 1);
  }

  /** The output of frame `i` is the output of the state reached after `i` frames. */
  lemma {:induction false} OutputAt<S, O>(step: S -> S, out: S -> O, s: S, n: nat, i: nat)
    requires i < n
    ensures Run(step, out, s, n).1[i] == out(Run(step, out, s, i).0)
    decreases i
  {
    if i > 0 {
      OutputAt(step, out, step(s), n - 1, i - 1);
    }
  }
}

=== FILE: instrument.dfy ===
/**
 The instrument's parameter set as the voice reads it: the knob values with
 their declared ranges and defaults, and the per-block snapshot that turns
 them into channel controls (duty fraction, remapped sweep shift, envelope
 and sweep periods in frames).
 */
module Instrument {
  import Sweep
  import Channels

  /** The knobs of one pulse channel. */
  datatype PulseKnobs = PulseKnobs(
    enabled: bool,
    coarse: int,
    volume: int,
    envEnabled: bool,
    envLooped: bool,
    envLen: int,
    dutyCycle: int,
    sweepEnabled: bool,
    sweepAmt: int,
    sweepRate: int)

  datatype TriangleKnobs = TriangleKnobs(enabled: bool, coarse: int, volume: int)

  /** The knobs of the noise channel; `noiseFreqMode` picks the note's pitch over the preset rate `noiseFreq`. */
  datatype NoiseKnobs = NoiseKnobs(
    enabled: bool,
    volume: int,
    envEnabled: bool,
    envLooped: bool,
    envLen: int,
    noiseMode: bool,
    noiseFreqMode: bool,
    noiseFreq: int)

  datatype Knobs = Knobs(ch1: PulseKnobs, ch2: PulseKnobs, ch3: TriangleKnobs, ch4: NoiseKnobs)

  /** Coarse detune range in semitones. */
  const MaxCoarse := 24
  /** Envelope length and noise frequency knob range 0..15. */
  const MaxLen := 15
  /** Sweep rate knob range 0..7. */
  const MaxRate := 7
  /** Duty cycle selector range 0..3. */
  const MaxDuty := 3

  predicate PulseKnobsValid(p: PulseKnobs)
  {
    && -MaxCoarse <= p.coarse <= MaxCoarse
    && 0 <= p.volume <= Channels.MaxVolume
    && 0 <= p.envLen <= MaxLen
    && 0 <= p.dutyCycle <= MaxDuty
    && -Sweep.MaxAmount <= p.sweepAmt <= Sweep.MaxAmount
    && 0 <= p.sweepRate <= MaxRate
  }

  /** Every knob lies in the range the instrument declares for it. */
  predicate Valid(k: Knobs)
  {
    && PulseKnobsValid(k.ch1)
    && PulseKnobsValid(k.ch2)
    && -MaxCoarse <= k.ch3.coarse <= MaxCoarse
    && 0 <= k.ch3.volume <= Channels.MaxVolume
    && 0 <= k.ch4.volume <= Channels.MaxVolume
    && 0 <= k.ch4.envLen <= MaxLen
    && 0 <= k.ch4.noiseFreq <= MaxLen
  }

  /** The knob values a new instrument starts with. */
  function Defaults(): (k: Knobs)
    ensures Valid(k)
    ensures k.ch1.enabled && k.ch2.enabled && k.ch3.enabled && k.ch4.enabled
    ensures !k.ch1.sweepEnabled && !k.ch2.sweepEnabled
    ensures !k.ch1.envEnabled && !k.ch2.envEnabled && !k.ch4.envEnabled
    ensures k.ch1.volume == k.ch2.volume == k.ch3.volume == k.ch4.volume == Channels.MaxVolume
  {
    Knobs(
      PulseKnobs(true, 0, 15, false, false, 0, 0, false, 0, 0),
      PulseKnobs(true, 0, 15, false, false, 0, 2, false, 0, 0),
      TriangleKnobs(true, 0, 15),
      NoiseKnobs(true, 15, false, false, 0, false, false, 0))
  }

  /** The duty fraction of a selector, in eighths: 12.5%, 25%, 50% and 75%. */
  function DutyEighths(selector: int): (d: int)
    requires 0 <= selector <= MaxDuty
    ensures d == 1 || d == 2 || d == 4 || d == 6
    ensures 0 < selector ==> DutyEighths(selector - 1) < d
  {
    if selector == 0 then 1 else if selector == 1 then 2 else if selector == 2 then 4 else 6
  }

  /**
   Envelope and sweep periods in frames. They come from the host's
   wavelength conversion of `240 / (len + 1)` and `120 / (rate + 1)`
   envelope and sweep frequencies, which this model does not compute.
   */
  datatype Timing = Timing(env1: int, env2: int, env4: int, sweep1: int, sweep2: int)

  /** The controls of one pulse channel for the block. */
  function PulseSnapshot(p: PulseKnobs, envLen: int, sweepRate: int): (c: Channels.PulseControls)
    requires PulseKnobsValid(p)
    ensures Channels.PulseControlsValid(c)
    ensures c.enabled == p.enabled && c.volume == p.volume
    ensures c.envEnabled == p.envEnabled && c.envLoop == p.envLooped && c.envLen == envLen
    ensures c.sweepEnabled == p.sweepEnabled && c.sweepRate == sweepRate
    ensures c.dutyEighths == DutyEighths(p.dutyCycle)
    ensures c.sweepShift == Sweep.Shift(p.sweepAmt)
  {
    Channels.PulseControls(
      p.enabled, p.volume, p.envEnabled, p.envLooped, envLen,
      DutyEighths(p.dutyCycle), p.sweepEnabled, Sweep.Shift(p.sweepAmt), sweepRate)
  }

  /**
   The controls of every channel for a block, used for all of its frames.
   Most knobs are read once before the frame loop; volume, envelope enable,
   sweep enable and noise mode are read again on every frame, which gives
   the same values while no knob changes during the block.
   */
  function Snapshot(k: Knobs, t: Timing): (c: Channels.Controls)
    requires Valid(k)
    ensures Channels.ControlsValid(c)
    ensures c.ch1 == PulseSnapshot(k.ch1, t.env1, t.sweep1) && c.ch2 == PulseSnapshot(k.ch2, t.env2, t.sweep2)
    ensures c.ch3 == Channels.TriangleControls(k.ch3.enabled, k.ch3.volume)
    ensures && c.ch4.enabled == k.ch4.enabled && c.ch4.volume == k.ch4.volume
            && c.ch4.envEnabled == k.ch4.envEnabled && c.ch4.envLoop == k.ch4.envLooped
            && c.ch4.envLen == t.env4 && c.ch4.shortMode == k.ch4.noiseMode
  {
    Channels.Controls(
      PulseSnapshot(k.ch1, t.env1, t.sweep1),
      PulseSnapshot(k.ch2, t.env2, t.sweep2),
      Channels.TriangleControls(k.ch3.enabled, k.ch3.volume),
      Channels.NoiseControls(k.ch4.enabled, k.ch4.volume, k.ch4.envEnabled, k.ch4.envLooped, t.env4, k.ch4.noiseMode))
  }
}

=== FILE: nes_math.dfy ===
/**
 The C++ integer operators the voice relies on, written out over Dafny's
 unbounded integers: a right shift of a non-negative `int`, and `/` with the
 C++ rounding (toward zero) rather than Dafny's Euclidean rounding.
 */
module NesMath {

  /** 2 to the power k. */
  function Pow2(k: nat): (r: nat)
    ensures r >= 1
    ensures k >= 1 ==> r >= 2
  {
    if k == 0 then 1 else 2 * Pow2(k - 1)
  }

  /** The C++ expression `x >> k` for a non-negative `x`: floor of x / 2^k. */
  function Shr(x: int, k: nat): (r: int)
    requires x >= 0
    ensures 0 <= r <= x
    ensures r * Pow2(k) <= x < (r + 1) * Pow2(k)
    ensures k >= 1 ==> 2 * r <= x
  {
    var p := Pow2(k);
    DivisionBounds(x, p);
    var q := x / p;
    assert k >= 1 ==> 2 * q <= q * p by { if k >= 1 { MulMonotone(q, 2, p); } }
    q
  }

  /** The C++ expression `a / d` for a positive divisor: the quotient rounded toward zero. */
  function Quot(a: int, d: int): (q: int)
    requires d > 0
    ensures a >= 0 ==> 0 <= q * d <= a < q * d + d
    ensures a < 0 ==> q * d - d < a <= q * d <= 0
  {
    var m := if a >= 0 then a else -a;
    DivisionBounds(m, d);
    if a >= 0 then m / d else -(m / d)
  }

  /** Euclidean division of a non-negative numerator, stated as bounds. */
  lemma DivisionBounds(x: int, p: int)
    requires x >= 0 && p >= 1
    ensures 0 <= x / p
    ensures (x / p) * p <= x < (x / p) * p + p
  {
    assert x == (x / p) * p + x % p;
  }

  lemma MulMonotone(q: int, a: int, b: int)
    requires q >= 0 && a <= b
    ensures q * a <= q * b
  {
  }

  /** A non-negative quotient by 15 never exceeds the factor it scales when the other factor is at most 15. */
  lemma {:induction false} ScaledByFifteenths(volume: int, level: int)
    ensures 0 <= volume && 0 <= level <= 15 ==> 0 <= Quot(volume * level, 15) <= volume
    ensures level == 15 ==> Quot(volume * level, 15) == volume
  {
    var q := Quot(volume * level, 15);
    if 0 <= volume && 0 <= level <= 15 {
      assert volume * level <= volume * 15;
      assert q * 15 <= volume * 15;
    }
  }

  /** What `%` leaves off is a whole number of periods: `x - x % w` is a multiple of `w`. */
  lemma WholePeriods(x: int, w: int)
    requires w >= 1
    ensures (x - x % w) % w == 0
  {
    var q := x / w;
    assert x - x % w == q * w;
    ModUnique(q * w, w, q, 0);
  }

  /** Writing `a` as `q * w + r` with `0 <= r < w` determines the remainder: it is `a % w`. */
  lemma ModUnique(a: int, w: int, q: int, r: int)
    requires w >= 1 && 0 <= r < w && a == q * w + r
    ensures a % w == r
  {
    var d := q - a / w;
    assert a == (a / w) * w + a % w;
    assert d * w == a % w - r;
    if d >= 1 {
      MulMonotone(w, 1, d);
    } else if d <= -1 {
      MulMonotone(w, d, -1);
    }
  }
}

=== FILE: sweep.dfy ===
/**
 The frequency sweep of the two pulse channels: the knob's sweep amount is
 remapped once per block into the inverted shift encoding of the emulated
 hardware, and every sweep period the wavelength moves by itself shifted right
 by the magnitude of that shift.
 */
module Sweep {
  import opened NesMath

  /** The knob range of the sweep amount. */
  const MaxAmount := 7

  /**
   The remapped shift for a knob amount: the amount is negated, then a
   positive value s becomes 8 - s and a negative one -8 - s.
   */
  function Shift(amount: int): (s: int)
    requires -MaxAmount <= amount <= MaxAmount
    ensures s == 0 <==> amount == 0
    ensures amount > 0 ==> s < 0 && -s == 8 - amount
    ensures amount < 0 ==> s > 0 && s == 8 + amount
    ensures amount != 0 ==> 1 <= Magnitude(s) <= MaxAmount
  {
    var s0 := -amount;
    var s1 := if s0 > 0 then 8 - s0 else s0;
    if s1 < 0 then -8 - s1 else s1
  }

  /** `qAbs` of a shift. */
  function Magnitude(s: int): nat
  {
    if s < 0 then -s else s
  }

  /**
   One sweep step of a wavelength. A positive shift lengthens it by
   `wlen >> s`, a negative one shortens it by `wlen >> |s|`; channel 1
   (`extraStep`) takes one more frame off when shortening.
   */
  function Apply(wlen: int, s: int, extraStep: bool): (r: int)
    requires wlen >= 1
    ensures s == 0 ==> r == wlen
    ensures s > 0 ==> r == wlen + Shr(wlen, Magnitude(s)) && wlen <= r
    ensures s > 0 && wlen >= Pow2(s) ==> wlen < r
    ensures s < 0 && !extraStep ==> r == wlen - Shr(wlen, Magnitude(s)) && 1 <= r <= wlen
    ensures s < 0 && extraStep ==> r == wlen - Shr(wlen, Magnitude(s)) - 1 && r < wlen
    ensures s < 0 && extraStep && wlen >= 3 ==> r >= 1
  {
    if s > 0 then
      wlen + Shr(wlen, Magnitude(s))
    else if s < 0 then
      var down := wlen - Shr(wlen, Magnitude(s));
      if extraStep then down - 1 else down
    else
      wlen
  }
}

=== FILE: voice.dfy ===
/**
 One sounding note: the integer state of its four channels, the per-block
 retuning of its wavelengths, the per-frame step, and rendering a block of
 frames as the step iterated. Each frame yields the four channel levels that
 the mixing stage turns into a sample.
 */
module Voice {
  import opened Channels
  import Envelope
  import Instrument
  import Frames

  /**
   Chip constants and helpers this model keeps abstract: the minimum
   wavelength, the 32-step triangle wavetable, the 16 preset noise rates as
   wavelengths in frames, and the noise shift register.
   */
  datatype Chip = Chip(minWlen: int, triangle: seq<int>, noiseWlens: seq<int>, lfsr: Lfsr)

  /** The number of preset noise rates. */
  const NoiseRates := 16

  /** The chip constants the step relies on: a minimum wavelength that survives channel 1's down-sweep, and full tables. */
  predicate ChipValid(chip: Chip)
  {
    chip.minWlen >= 3 && |chip.triangle| == TriangleSteps && |chip.noiseWlens| == NoiseRates
  }

  /** Every triangle wavetable entry is a 4-bit level. */
  predicate WavetableIs4Bit(chip: Chip)
  {
    forall j :: 0 <= j < |chip.triangle| ==> 0 <= chip.triangle[j] <= 15
  }

  /**
   The state of one voice: the four channels, the largest valid wavelength
   (fixed when the voice is created) and the note frequency the wavelengths
   were last computed for.
   */
  datatype VoiceState = VoiceState(ch1: Pulse, ch2: Pulse, ch3: Triangle, ch4: Noise, maxWlen: int, lastFreq: real)

  /** The four channel levels of one frame. */
  datatype Levels = Levels(ch1: int, ch2: int, ch3: int, ch4: int)

  /** What every state the step can see satisfies: positive tone wavelengths, non-negative counters, 4-bit envelopes. */
  predicate Valid(v: VoiceState)
  {
    PulseValid(v.ch1) && PulseValid(v.ch2) && TriangleValid(v.ch3) && NoiseValid(v.ch4)
  }

  /**
   A new voice: counters at 0, envelopes at 15, the noise register at its
   seed and no frequency seen yet. The wavelengths are not set until the
   first block retunes the voice; they start as 0 here.
   */
  function New(chip: Chip, maxWlen: int): (v: VoiceState)
    ensures v.ch1.phase == v.ch2.phase == v.ch3.phase == v.ch4.counter == 0
    ensures v.ch1.sweepCounter == v.ch2.sweepCounter == 0
    ensures v.ch1.env == v.ch2.env == v.ch4.env == Envelope.Env(0, Envelope.Top)
    ensures v.ch4.register == chip.lfsr.seed
    ensures v.maxWlen == maxWlen && v.lastFreq == 0.0
  {
    var env := Envelope.Env(0, Envelope.Top);
    VoiceState(
      Pulse(0, 0, env, 0),
      Pulse(0, 0, env, 0),
      Triangle(0, 0),
      Noise(0, 0, env, chip.lfsr.seed),
      maxWlen,
      0.0)
  }

  /**
   What the host supplies for a block: the note frequency, the wavelengths
   of channels 1 to 3 at that frequency times their detune factors, and the
   wavelength of the plain note frequency.
   */
  datatype Pitch = Pitch(freq: real, wlen1: int, wlen2: int, wlen3: int, noteWlen: int)

  /** The noise channel's wavelength for a block: the note's own, or a preset rate read from the top of the table down. */
  function NoiseWlen(chip: Chip, knobs: Instrument.NoiseKnobs, pitch: Pitch): (w: int)
    requires ChipValid(chip) && 0 <= knobs.noiseFreq <= Instrument.MaxLen
    ensures knobs.noiseFreqMode ==> w == pitch.noteWlen
    ensures !knobs.noiseFreqMode ==> w in chip.noiseWlens
    ensures !knobs.noiseFreqMode ==> w == chip.noiseWlens[NoiseRates - 1 - knobs.noiseFreq]
    ensures !knobs.noiseFreqMode && knobs.noiseFreq == Instrument.MaxLen ==> w == chip.noiseWlens[0]
    ensures !knobs.noiseFreqMode && knobs.noiseFreq == 0 ==> w == chip.noiseWlens[NoiseRates - 1]
  {
    if knobs.noiseFreqMode then pitch.noteWlen else chip.noiseWlens[Instrument.MaxLen - knobs.noiseFreq]
  }

  /**
   The start of a block: the tone wavelengths are recomputed only when the
   note frequency differs from the last one seen, so a held note keeps its
   swept wavelengths; the noise wavelength is recomputed every block.
   Nothing else changes.
   */
  function Retune(chip: Chip, knobs: Instrument.Knobs, v: VoiceState, pitch: Pitch): (r: VoiceState)
    requires ChipValid(chip) && Instrument.Valid(knobs)
    ensures pitch.freq == v.lastFreq ==> r.ch1.wlen == v.ch1.wlen && r.ch2.wlen == v.ch2.wlen && r.ch3.wlen == v.ch3.wlen
    ensures pitch.freq != v.lastFreq ==> r.ch1.wlen == pitch.wlen1 && r.ch2.wlen == pitch.wlen2 && r.ch3.wlen == pitch.wlen3
    ensures r.ch4.wlen == NoiseWlen(chip, knobs.ch4, pitch)
    ensures r.lastFreq == pitch.freq
    ensures r == v.(ch1 := v.ch1.(wlen := r.ch1.wlen), ch2 := v.ch2.(wlen := r.ch2.wlen),
                    ch3 := v.ch3.(wlen := r.ch3.wlen), ch4 := v.ch4.(wlen := r.ch4.wlen), lastFreq := r.lastFreq)
  {
    var changed := pitch.freq != v.lastFreq;
    VoiceState(
      if changed then v.ch1.(wlen := pitch.wlen1) else v.ch1,
      if changed then v.ch2.(wlen := pitch.wlen2) else v.ch2,
      if changed then v.ch3.(wlen := pitch.wlen3) else v.ch3,
      v.ch4.(wlen := NoiseWlen(chip, knobs.ch4, pitch)),
      v.maxWlen,
      pitch.freq)
  }

  /** The channel levels of the current frame, read from the state before the frame's updates. */
  function Output(chip: Chip, k: Controls, v: VoiceState): (l: Levels)
    requires ChipValid(chip) && Valid(v)
    ensures !k.ch1.enabled || !InRange(v.ch1.wlen, chip.minWlen, v.maxWlen) ==> l.ch1 == 0
    ensures !k.ch2.enabled || !InRange(v.ch2.wlen, chip.minWlen, v.maxWlen) ==> l.ch2 == 0
    ensures !k.ch3.enabled || v.ch3.wlen > v.maxWlen ==> l.ch3 == 0
    ensures !k.ch4.enabled || !chip.lfsr.output(v.ch4.register) ==> l.ch4 == 0
    ensures l.ch1 != 0 ==> High(v.ch1.phase, v.ch1.wlen, k.ch1.dutyEighths)
    ensures l.ch2 != 0 ==> High(v.ch2.phase, v.ch2.wlen, k.ch2.dutyEighths)
    ensures k.ch1.enabled && InRange(v.ch1.wlen, chip.minWlen, v.maxWlen) && High(v.ch1.phase, v.ch1.wlen, k.ch1.dutyEighths)
      ==> l.ch1 == Amplitude(k.ch1.volume, k.ch1.envEnabled, v.ch1.env.value)
    ensures k.ch2.enabled && InRange(v.ch2.wlen, chip.minWlen, v.maxWlen) && High(v.ch2.phase, v.ch2.wlen, k.ch2.dutyEighths)
      ==> l.ch2 == Amplitude(k.ch2.volume, k.ch2.envEnabled, v.ch2.env.value)
    ensures k.ch3.enabled && v.ch3.wlen <= v.maxWlen
      ==> l.ch3 == Amplitude(k.ch3.volume, true, chip.triangle[TriangleIndex(v.ch3.phase, v.ch3.wlen)])
    ensures k.ch4.enabled && chip.lfsr.output(v.ch4.register) ==> l.ch4 == Amplitude(k.ch4.volume, k.ch4.envEnabled, v.ch4.env.value)
    ensures ControlsValid(k) ==> Bounded(k, l)
    ensures ControlsValid(k) && WavetableIs4Bit(chip) ==> 0 <= l.ch3 <= k.ch3.volume
  {
    Levels(
      PulseLevel(k.ch1, v.ch1, chip.minWlen, v.maxWlen),
      PulseLevel(k.ch2, v.ch2, chip.minWlen, v.maxWlen),
      TriangleLevel(chip.triangle, k.ch3, v.ch3, v.maxWlen),
      NoiseLevel(chip.lfsr, k.ch4, v.ch4))
  }

  /** The pulse and noise levels lie between 0 and their channel's volume. */
  predicate Bounded(k: Controls, l: Levels)
  {
    && 0 <= l.ch1 <= k.ch1.volume
    && 0 <= l.ch2 <= k.ch2.volume
    && 0 <= l.ch4 <= k.ch4.volume
  }

  /**
   One frame: channel 1 and 2 sweep, phase and envelope (channel 1 with its
   extra down-sweep step), the triangle's phase, and the noise channel's
   register and envelope. The voice's fixed values stay put.
   */
  function Next(chip: Chip, k: Controls, v: VoiceState): (r: VoiceState)
    requires ChipValid(chip) && Valid(v)
    ensures Valid(r)
    ensures r.ch1 == PulseNext(k.ch1, v.ch1, chip.minWlen, v.maxWlen, true)
    ensures r.ch2 == PulseNext(k.ch2, v.ch2, chip.minWlen, v.maxWlen, false)
    ensures r.ch3 == TriangleNext(v.ch3)
    ensures r.ch4 == NoiseNext(chip.lfsr, k.ch4, v.ch4)
    ensures r.maxWlen == v.maxWlen && r.lastFreq == v.lastFreq
  {
    VoiceState(
      PulseNext(k.ch1, v.ch1, chip.minWlen, v.maxWlen, true),
      PulseNext(k.ch2, v.ch2, chip.minWlen, v.maxWlen, false),
      TriangleNext(v.ch3),
      NoiseNext(chip.lfsr, k.ch4, v.ch4),
      v.maxWlen,
      v.lastFreq)
  }

  /**
   The frame step as a total function of the state. Rendering only ever
   meets valid states; any other state is left as it is.
   */
  function Step(chip: Chip, k: Controls): VoiceState -> VoiceState
  {
    v => if ChipValid(chip) && Valid(v) then Next(chip, k, v) else v
  }

  /** The levels of a frame as a total function of the state (silence outside valid states). */
  function Emit(chip: Chip, k: Controls): VoiceState -> Levels
  {
    v => if ChipValid(chip) && Valid(v) then Output(chip, k, v) else Levels(0, 0, 0, 0)
  }

  /** Rendering `n` frames: the state after them and the levels of each frame. */
  function Render(chip: Chip, k: Controls, v: VoiceState, n: nat): (r: (VoiceState, seq<Levels>))
    requires ChipValid(chip) && Valid(v)
    ensures Valid(r.0) && |r.1| == n
    ensures r.0.maxWlen == v.maxWlen && r.0.lastFreq == v.lastFreq
    ensures r.0.ch3.wlen == v.ch3.wlen && r.0.ch4.wlen == v.ch4.wlen
  {
    RenderKeeps(chip, k, v, n);
    Frames.Run(Step(chip, k), Emit(chip, k), v, n)
  }

  /** Every frame keeps the state valid and leaves the voice's fixed values and unswept wavelengths alone. */
  lemma {:induction false} RenderKeeps(chip: Chip, k: Controls, v: VoiceState, n: nat)
    requires ChipValid(chip) && Valid(v)
    ensures var w := Frames.Run(Step(chip, k), Emit(chip, k), v, n).0;
      && Valid(w)
      && w.maxWlen == v.maxWlen && w.lastFreq == v.lastFreq
      && w.ch3.wlen == v.ch3.wlen && w.ch4.wlen == v.ch4.wlen
    decreases n
  {
    if n > 0 {
      RenderKeeps(chip, k, Next(chip, k, v), n - 1);
    }
  }

  /** Rendering 0 frames leaves the voice exactly as it was and produces nothing. */
  lemma RenderNothing(chip: Chip, k: Controls, v: VoiceState)
    requires ChipValid(chip) && Valid(v)
    ensures Render(chip, k, v, 0) == (v, [])
  {
  }

  /** Rendering one frame more steps the state once and appends the levels read before that step. */
  lemma RenderOneMore(chip: Chip, k: Controls, v: VoiceState, n: nat)
    requires ChipValid(chip) && Valid(v)
    ensures Render(chip, k, v, n + 1).0 == Next(chip, k, Render(chip, k, v, n).0)
    ensures Render(chip, k, v, n + 1).1 == Render(chip, k, v, n).1 + [Output(chip, k, Render(chip, k, v, n).0)]
  {
    Frames.Extend(Step(chip, k), Emit(chip, k), v, n);
  }

  /** Block continuity: rendering `a` frames and then `b` more is rendering `a + b` frames. */
  lemma RenderSplit(chip: Chip, k: Controls, v: VoiceState, a: nat, b: nat)
    requires ChipValid(chip) && Valid(v)
    ensures Render(chip, k, Render(chip, k, v, a).0, b).0 == Render(chip, k, v, a + b).0
    ensures Render(chip, k, v, a).1 + Render(chip, k, Render(chip, k, v, a).0, b).1 == Render(chip, k, v, a + b).1
  {
    Frames.Split(Step(chip, k), Emit(chip, k), v, a, b);
  }

  /** The levels of frame `i` are those of the state the first `i` frames reached. */
  lemma RenderFrame(chip: Chip, k: Controls, v: VoiceState, n: nat, i: nat)
    requires ChipValid(chip) && Valid(v) && i < n
    ensures Render(chip, k, v, n).1[i] == Output(chip, k, Render(chip, k, v, i).0)
  {
    Frames.OutputAt(Step(chip, k), Emit(chip, k), v, n, i);
  }

  /** After at least one frame the pulse phases lie inside their wavelengths. */
  lemma RenderPhases(chip: Chip, k: Controls, v: VoiceState, n: nat)
    requires ChipValid(chip) && Valid(v) && n >= 1
    ensures var w := Render(chip, k, v, n).0;
      && 0 <= w.ch1.phase < w.ch1.wlen
      && 0 <= w.ch2.phase < w.ch2.wlen
  {
    RenderOneMore(chip, k, v, n - 1);
  }

  /** Each envelope evolves on its own: after `n` frames it is the envelope run for `n` frames. */
  lemma {:induction false} RenderEnvelopes(chip: Chip, k: Controls, v: VoiceState, n: nat)
    requires ChipValid(chip) && Valid(v)
    ensures Render(chip, k, v, n).0.ch1.env == Envelope.Run(v.ch1.env, k.ch1.envLen, k.ch1.envLoop, n)
    ensures Render(chip, k, v, n).0.ch2.env == Envelope.Run(v.ch2.env, k.ch2.envLen, k.ch2.envLoop, n)
    ensures Render(chip, k, v, n).0.ch4.env == Envelope.Run(v.ch4.env, k.ch4.envLen, k.ch4.envLoop, n)
    decreases n
  {
    if n > 0 {
      RenderEnvelopes(chip, k, Next(chip, k, v), n - 1);
    }
  }

  /** The noise channel evolves on its own: after `n` frames it is the noise channel run for `n` frames. */
  lemma {:induction false} RenderNoise(chip: Chip, k: Controls, v: VoiceState, n: nat)
    requires ChipValid(chip) && Valid(v)
    ensures Render(chip, k, v, n).0.ch4 == NoiseRun(chip.lfsr, k.ch4, v.ch4, n)
    decreases n
  {
    if n > 0 {
      RenderNoise(chip, k, Next(chip, k, v), n - 1);
    }
  }

  /**
   Sweep direction over any number of frames: a positive shift never
   shortens a pulse wavelength, a negative one never lengthens it, and with
   the sweep disabled it never moves.
   */
  lemma {:induction false} RenderSweepDirection(chip: Chip, k: Controls, v: VoiceState, n: nat)
    requires ChipValid(chip) && Valid(v)
    ensures var w := Render(chip, k, v, n).0;
      && (k.ch1.sweepShift > 0 ==> w.ch1.wlen >= v.ch1.wlen)
      && (k.ch1.sweepShift < 0 ==> w.ch1.wlen <= v.ch1.wlen)
      && (!k.ch1.sweepEnabled ==> w.ch1.wlen == v.ch1.wlen)
      && (k.ch2.sweepShift > 0 ==> w.ch2.wlen >= v.ch2.wlen)
      && (k.ch2.sweepShift < 0 ==> w.ch2.wlen <= v.ch2.wlen)
      && (!k.ch2.sweepEnabled ==> w.ch2.wlen == v.ch2.wlen)
    decreases n
  {
    if n > 0 {
      RenderSweepDirection(chip, k, Next(chip, k, v), n - 1);
    }
  }

  /** Channel 1's down-sweep always takes at least one frame off: on every frame where it sweeps, its wavelength strictly falls. */
  lemma Channel1DownSweepStrict(chip: Chip, k: Controls, v: VoiceState)
    requires ChipValid(chip) && Valid(v)
    requires k.ch1.sweepShift < 0 && k.ch1.sweepEnabled
    requires SweepFires(k.ch1, v.ch1) && InRange(v.ch1.wlen, chip.minWlen, v.maxWlen)
    ensures Next(chip, k, v).ch1.wlen < v.ch1.wlen
    ensures Next(chip, k, v).ch1.sweepCounter == 0
  {
  }

  /** Every frame's levels are bounded by the channel volumes, and a disabled channel is silent in every frame. */
  lemma RenderLevels(chip: Chip, k: Controls, v: VoiceState, n: nat)
    requires ChipValid(chip) && Valid(v)
    ensures forall i :: 0 <= i < n ==>
      var l := Render(chip, k, v, n).1[i];
      && (ControlsValid(k) ==> Bounded(k, l))
      && (ControlsValid(k) && WavetableIs4Bit(chip) ==> 0 <= l.ch3 <= k.ch3.volume)
      && (!k.ch1.enabled ==> l.ch1 == 0)
      && (!k.ch2.enabled ==> l.ch2 == 0)
      && (!k.ch3.enabled ==> l.ch3 == 0)
      && (!k.ch4.enabled ==> l.ch4 == 0)
  {
    forall i | 0 <= i < n
      ensures var l := Render(chip, k, v, n).1[i];
        && (ControlsValid(k) ==> Bounded(k, l))
        && (ControlsValid(k) && WavetableIs4Bit(chip) ==> 0 <= l.ch3 <= k.ch3.volume)
        && (!k.ch1.enabled ==> l.ch1 == 0)
        && (!k.ch2.enabled ==> l.ch2 == 0)
        && (!k.ch3.enabled ==> l.ch3 == 0)
        && (!k.ch4.enabled ==> l.ch4 == 0)
    {
      RenderFrame(chip, k, v, n, i);
    }
  }

  // ---------------------------------------------------------------------------
  // Blocks
  // ---------------------------------------------------------------------------

  /** One render call: retune for the block's pitch, snapshot the knobs, then render the frames. */
  function RenderBlock(chip: Chip, knobs: Instrument.Knobs, t: Instrument.Timing, v: VoiceState, pitch: Pitch, frames: nat): (r: (VoiceState, seq<Levels>))
    requires ChipValid(chip) && Instrument.Valid(knobs) && Valid(Retune(chip, knobs, v, pitch))
    ensures r == Render(chip, Instrument.Snapshot(knobs, t), Retune(chip, knobs, v, pitch), frames)
    ensures Valid(r.0) && |r.1| == frames
    ensures r.0.lastFreq == pitch.freq
  {
    Render(chip, Instrument.Snapshot(knobs, t), Retune(chip, knobs, v, pitch), frames)
  }

  /**
   A render call of 0 frames is not a no-op: it still retunes the voice,
   which resets swept wavelengths when the pitch changed and recomputes the
   noise wavelength. Only with the pitch held and the noise wavelength
   already current does it leave the voice as it was.
   */
  lemma EmptyBlock(chip: Chip, knobs: Instrument.Knobs, t: Instrument.Timing, v: VoiceState, pitch: Pitch)
    requires ChipValid(chip) && Instrument.Valid(knobs) && Valid(Retune(chip, knobs, v, pitch))
    ensures RenderBlock(chip, knobs, t, v, pitch, 0) == (Retune(chip, knobs, v, pitch), [])
    ensures pitch.freq == v.lastFreq && v.ch4.wlen == NoiseWlen(chip, knobs.ch4, pitch)
      ==> RenderBlock(chip, knobs, t, v, pitch, 0) == (v, [])
  {
    RenderNothing(chip, Instrument.Snapshot(knobs, t), Retune(chip, knobs, v, pitch));
  }

  /** The first block of a note sets every wavelength, so a new voice is valid once retuned to a positive pitch. */
  lemma FirstBlockValid(chip: Chip, maxWlen: int, knobs: Instrument.Knobs, pitch: Pitch)
    requires ChipValid(chip) && Instrument.Valid(knobs)
    requires pitch.freq > 0.0 && pitch.wlen1 >= 1 && pitch.wlen2 >= 1 && pitch.wlen3 >= 1
    ensures Valid(Retune(chip, knobs, New(chip, maxWlen), pitch))
  {
  }

  /**
   Block continuity across render calls: with the knobs, timing and pitch
   held, rendering `a` frames and then `b` frames in a second call gives the
   same state and the same frames as one call of `a + b` frames.
   */
  lemma BlockContinuity(chip: Chip, knobs: Instrument.Knobs, t: Instrument.Timing, v: VoiceState, pitch: Pitch, a: nat, b: nat)
    requires ChipValid(chip) && Instrument.Valid(knobs) && Valid(Retune(chip, knobs, v, pitch))
    ensures var first := RenderBlock(chip, knobs, t, v, pitch, a);
      && Valid(Retune(chip, knobs, first.0, pitch))
      && RenderBlock(chip, knobs, t, first.0, pitch, b).0 == RenderBlock(chip, knobs, t, v, pitch, a + b).0
      && first.1 + RenderBlock(chip, knobs, t, first.0, pitch, b).1 == RenderBlock(chip, knobs, t, v, pitch, a + b).1
  {
    var k := Instrument.Snapshot(knobs, t);
    var u := Retune(chip, knobs, v, pitch);
    var first := Render(chip, k, u, a);
    assert Retune(chip, knobs, first.0, pitch) == first.0;
    RenderSplit(chip, k, u, a, b);
  }

  /**
   The render loop: one frame at a time, each frame's levels read before
   its updates. It produces exactly the block `RenderBlock` describes.
   */
  method RenderOutput(chip: Chip, knobs: Instrument.Knobs, t: Instrument.Timing, v0: VoiceState, pitch: Pitch, frames: nat)
    returns (v: VoiceState, buf: seq<Levels>)
    requires ChipValid(chip) && Instrument.Valid(knobs) && Valid(Retune(chip, knobs, v0, pitch))
    ensures (v, buf) == RenderBlock(chip, knobs, t, v0, pitch, frames)
  {
    v := Retune(chip, knobs, v0, pitch);
    var k := Instrument.Snapshot(knobs, t);
    ghost var start := v;
    buf := [];
    var f := 0;
    while f < frames
      invariant 0 <= f <= frames
      invariant Valid(v)
      invariant Render(chip, k, start, f) == (v, buf)
    {
      RenderOneMore(chip, k, start, f);
      buf := buf + [Output(chip, k, v)];
      v := Next(chip, k, v);
      f := f + 1;
    }
  }
}
